=== FILE: README.md ===
# Ring camera session core — a Dafny model

This project models the sequential state machines inside `RingCamera`
(`api/ring-camera.ts`), the class of the Ring client that tracks a camera's
state, its short-lived "dings" (motion, doorbell press, on-demand stream),
its snapshot cache, the reservation of a ding for a SIP live-stream session,
and the live-video recorder. Time, the REST backend, timers, sockets and the
media pipeline are replaced by explicit inputs:

- time is a millisecond clock passed in as `now` (or carried by each answer);
- a REST request is an oracle answer (`RequestOk`/`RequestFailed`, a
  `TimestampAnswer`, a `FetchResult`, a `VodOracle`);
- an RxJS stream is the sequence of values it has emitted;
- a `setTimeout` callback is an explicit event (`Expire`, `Tick`);
- `Promise.all`, the public-address lookup and the port bindings are
  `Option` inputs, `None` when that call fails.

Modules:

- `Wrappers`: `Option` and `Result`.
- `Device`: the camera record, the capability flags fixed at construction
  (`hasLight`, `hasSiren`, `hasBattery`, the snapshot lifetime), `updateData`,
  `isOffline`, `setLight`, `setSiren`. `Snapshot` takes its offline test from
  here. Its functions take the snapshot lifetime as a parameter;
  `Snapshot.LifeTimeByPowerSource` and `Snapshot.FirstSnapshotPolls` fill it
  from the lifetime `Device.NewCamera` chooses.
- `ActiveDings`: `processActiveDing` and its 65 s expiry, `onNewDing`,
  `onDoorbellPressed`, `onMotionDetected`. Object identity (`!==`) is modelled
  by a fresh handle per reported ding. The `distinctUntilChanged` motion
  stream is checked against an independent reference definition (`Dedup`).
- `Snapshot`: `isTimestampInLifeTime`, `getSnapshotTimestamp`,
  `refreshSnapshot` and `getSnapshot`. `getSnapshot` is split at its
  suspension point into `Join` (attach to or start the single-flight refresh)
  and `Resume` (decide after the refresh settled), plus `Settle` (the image
  request settles). Overlapping callers are then modelled by interleaving
  these steps. `allowStale` defaults to false in the source (line 274); the
  model takes it as an explicit argument.
- `Sip`: `getSipOptions` over the tracker's active dings, `getSipConnectionDetails`, and the option assembly
  and fail-fast join of `createSipSession`, including the SRTP merge
  `{ port, ...srtpOption.audio }`. The source's default `srtpOption = {}`
  (line 327) is `SrtpOverrides(None, None)`.
- `Recording`: the five-attempt acquisition loop of `recordLiveVideoToFile`,
  the session start, the no-packet decision, and the job's effect on
  `<filename>.h264` and `<filename>.mp4`. The source's default `duration` is
  30 seconds (line 367); the model takes the duration as an explicit argument.

Behaviours of the code that a caller may not expect, all kept in the model:

- With `allowStale`, a failed refresh does not serve the cached image. It
  falls through to a new image request, and a failed request then also
  clears the good cached image (`Snapshot.StaleModeRequestsNewImage`).
- A refresh error raised without `allowStale` leaves
  `refreshSnapshotInProgress` set. The rejected refresh stays memoised, so
  every later call without `allowStale` re-raises it without polling
  (`Snapshot.FailedRefreshStaysMemoised`).
- Single-flight applies to the timestamp refresh, not to the image request.
  Say two callers overlap and the refresh says a new image is needed. Then
  each caller issues its own image request (`Snapshot.ConcurrentCallers`).
- The local timestamp becomes 0 whenever the remote timestamp is 0. This
  includes a device entry whose timestamp is 0, not only a missing entry.
- A failed remux leaves `<filename>.h264` behind, because the file is
  deleted only after the remux succeeds. A rejected `sipSession.start()`
  leaves it behind too. On that path neither `sipSession.stop()` nor
  `h264builder.end()` is called, because the writer is created before the
  start and the rejection propagates straight out.
- Two overlapping `getSipOptions` calls that both fall back to an on-demand
  stream wait on the same new-ding stream. Both therefore receive the same
  on-demand ding, so one ding serves two sessions
  (`Sip.OverlappingOnDemandShareDing`). Reservation from the active set
  happens before any suspension, so it has no such race.
- A ding is reserved as soon as `getSipOptions` settles, even when another
  branch of the `createSipSession` join fails.

## Model

| member | source | states |
|---|---|---|
| `Device.NewCamera` | api/ring-camera.ts:50-55 | light/siren capability is the presence of `led_status`/`siren_status` in the initial record; battery iff the kind is a battery kind; the snapshot lifetime is 600000 ms for battery kinds and 30000 ms otherwise (line 238) |
| `Device.Camera.Data` | api/ring-camera.ts:92-94 | the current record is the last one published on `onData` |
| `Device.IsOffline` | api/ring-camera.ts:112-114 | a device is offline exactly when the connection alert of the record current at that moment is `offline` |
| `Device.UpdateData` | api/ring-camera.ts:84-86 | publishing a record makes it current, extends the published history, and never changes the capability flags or the lifetime |
| `Device.SetLight` | api/ring-camera.ts:120-135 | without a light: answer false and nothing changes; a failed request changes nothing; otherwise answer true and publish the record with only `led_status` set to on/off; every other field of the camera (identity, kind, capabilities, lifetime) is unchanged |
| `Device.SetSiren` | api/ring-camera.ts:137-152 | without a siren: answer false and nothing changes; a failed request changes nothing; otherwise answer true and publish the record with only the siren status changed, to one second remaining; every other field of the camera is unchanged |
| `Device.LightToggleRestores` | api/ring-camera.ts:120-135 | switching the light one way and back restores the current record |
| `ActiveDings.Init` | api/ring-camera.ts:61-62 | the tracker starts with no active dings and motion status false, and satisfies the tracker invariant |
| `ActiveDings.Report` | api/ring-camera.ts:183-188 | a report appends exactly the new ding after the existing ones, emits it on the new-ding stream, keeps identities unique, and motion becomes true iff it was true or the ding is a motion event |
| `ActiveDings.Expire` | api/ring-camera.ts:189-193 | an expiry removes the entries with that identity, keeps the invariant, and the motion status afterwards matches the remaining dings |
| `ActiveDings.RemoveHandle` | api/ring-camera.ts:191 | the identity filter never lengthens the list; `RemoveHandleMembers` characterises what it keeps |
| `ActiveDings.RemoveHandleMembers` | api/ring-camera.ts:191 | filtering by identity keeps exactly the entries with a different identity |
| `ActiveDings.RemoveExactlyOne` | api/ring-camera.ts:191 | with unique identities, removing one entry's identity removes that entry only and keeps the others in relative order |
| `ActiveDings.ExpireRemovesExactly` | api/ring-camera.ts:189-193 | an expiry removes exactly the expiring ding and keeps all other dings in their order |
| `ActiveDings.ReportThenExpire` | api/ring-camera.ts:183-194 | reporting a ding and firing its own expiry gives back the original active list |
| `ActiveDings.Publish` | api/ring-camera.ts:67-72 | publishing an active list keeps the tracker invariant, extends the motion emissions by at most one value, and the latest emission is the list's motion status |
| `ActiveDings.NextLog` | api/ring-camera.ts:69 | one deduplication step only extends the emissions, by at most one value, and ends with the new value |
| `ActiveDings.DedupSnoc` | api/ring-camera.ts:69 | the incremental deduplication step agrees with the reference deduplication of the whole history |
| `ActiveDings.MotionIn` | api/ring-camera.ts:68 | the motion status of an active list, computed from the newest entry back; `MotionInIffSome` proves it equals the `some` of line 68 |
| `ActiveDings.MotionInIffSome` | api/ring-camera.ts:68 | the motion status is true iff some active ding has `motion` set or kind motion |
| `ActiveDings.DedupFacts` | api/ring-camera.ts:69 | the deduplicated stream keeps the first and last values and never holds two equal consecutive values |
| `ActiveDings.MotionStatusTracksActive` | api/ring-camera.ts:67-72 | the latest motion emission is true iff some active ding has `motion` set or kind motion, and the emissions never repeat a value |
| `ActiveDings.DoorbellPresses` | api/ring-camera.ts:62-65 | the doorbell stream holds exactly the new-ding emissions of kind `ding`, and no more values than the new-ding stream |
| `ActiveDings.ReportDoorbell` | api/ring-camera.ts:62-65 | a report extends the doorbell stream by the ding exactly when it is a doorbell press |
| `ActiveDings.ExpireAll` | api/ring-camera.ts:189-193 | firing several expiry callbacks in turn keeps the tracker invariant, removes those identities from the active list, and reports nothing new |
| `ActiveDings.Tick` | api/ring-camera.ts:189-193 | firing every timer due by `now` keeps the tracker invariant and reports nothing new; `TickKeepsLive` states which dings remain |
| `ActiveDings.TickKeepsLive` | api/ring-camera.ts:189-193 | once every due timer fired, the active dings are exactly those reported less than 65 s ago, in order |
| `ActiveDings.DingLifeTime` | api/ring-camera.ts:189-193 | a ding reported at T is active at T+64 s and gone at T+66 s |
| `Snapshot.IsTimestampInLifeTime` | api/ring-camera.ts:210-212 | freshness is strict: an age below the lifetime is fresh, an age equal to it is already stale |
| `Snapshot.Verdict` | api/ring-camera.ts:253-267 | one poll settles with "request failed" iff the request failed; with "offline" iff the timestamp is 0 and the current record says offline; with "new image needed" iff otherwise the remote age is within the lifetime; it never settles with reuse or a timeout |
| `Snapshot.GetSnapshotTimestamp` | api/ring-camera.ts:214-235 | a missing device entry gives timestamp 0 and local timestamp 0; otherwise the local timestamp is exactly the arrival time minus the remote age, so never in the future, and it is fresh exactly when the remote age is |
| `Snapshot.PollLoop` | api/ring-camera.ts:253-271 | at most 60 requests; settles at the first answer that fails, shows an offline device with no snapshot, or is in lifetime; times out iff all 60 answers were stale; every poll updates the local timestamp, so "new image needed" leaves the deciding poll's, "offline" leaves 0, a timeout leaves the 60th poll's, and a failed request leaves the previous poll's (or the starting one) |
| `Snapshot.Refresh` | api/ring-camera.ts:242-272 | returns reuse (true) iff the local timestamp is fresh, and then makes no request and keeps it; otherwise settles at the first decisive answer, or times out after exactly 60 stale answers; the local timestamp afterwards is the deciding poll's ("new image needed"), 0 ("offline"), the 60th poll's (timeout), or the one before the failed request |
| `Snapshot.OfflineFailsImmediately` | api/ring-camera.ts:256-260 | an offline device with no snapshot fails after a single request |
| `Snapshot.FreshAfterInLifeTimePoll` | api/ring-camera.ts:227-244 | after an in-lifetime poll, a refresh started at the answer's arrival reuses the image with no request |
| `Snapshot.Join` | api/ring-camera.ts:275-276 | a caller attaches to the refresh in progress without any request; otherwise it starts one and memoises its outcome |
| `Snapshot.Resume` | api/ring-camera.ts:278-297 | serves the cache without an image request iff the refresh said reuse and an image is cached; raises the refresh error without `allowStale` and keeps it memoised; otherwise issues one image request that replaces the cache |
| `Snapshot.Settle` | api/ring-camera.ts:299-302 | a failed image request is dropped from the cache, and nothing else changes |
| `Snapshot.GetSnapshot` | api/ring-camera.ts:274-305 | the four caching rules for one uninterrupted call: reuse the in-progress refresh with no request, or else take the outcome and request count of a refresh of its own; serve the cache with no image request iff reuse and cached; otherwise one image request that replaces the cache; a failed request clears it; a call making no image request keeps the cache, and serving the cache clears the in-progress marker; the local timestamp is the one its own refresh left, untouched when it joined one in progress |
| `Snapshot.LifeTimeByPowerSource` | api/ring-camera.ts:237-248 | a camera built from a battery kind reuses a snapshot less than ten minutes old, any other camera one less than thirty seconds old |
| `Snapshot.InitialState` | api/ring-camera.ts:237-240 | a camera's snapshot state starts with no refresh in progress, local timestamp 0 and no cached image request |
| `Snapshot.FirstSnapshotPolls` | api/ring-camera.ts:237-248 | the first snapshot of a new camera always polls the device: the initial local timestamp 0 is never fresh |
| `Snapshot.FreshCacheServedWithoutRequests` | api/ring-camera.ts:242-283 | within the lifetime a cached image is returned again with no request of any kind |
| `Snapshot.StaleModeRequestsNewImage` | api/ring-camera.ts:285-297 | with `allowStale` and a timed-out refresh, a new image is requested instead of serving the cache, and a failed request clears the cache |
| `Snapshot.FailedRefreshStaysMemoised` | api/ring-camera.ts:275-289 | after a refresh error without `allowStale`, every later such call re-raises that error with no request |
| `Snapshot.MemoisedErrorRepeats` | api/ring-camera.ts:275-289 | while a rejected refresh is memoised, calls without `allowStale` leave the state unchanged and make no request |
| `Snapshot.ConcurrentCallers` | api/ring-camera.ts:274-304 | two overlapping callers share one refresh; one image request in total if it says reuse with nothing cached, two if it says a new image is needed |
| `Sip.NewestUnused` | api/ring-camera.ts:310-314 | finds the newest active ding whose id is unused; every newer ding's id is used; none only when all are used |
| `Sip.FirstOnDemand` | api/ring-camera.ts:172-177 | finds the first later ding of kind `on_demand` |
| `Sip.GetSipOptions` | api/ring-camera.ts:309-324 | returns `to`, `from` and `dingId` of the newest unused active ding, else of the first on-demand ding after the VOD request; appends the chosen id to the used ids, and only then |
| `Sip.ReservedDingIsRecent` | api/ring-camera.ts:309-314 | a ding reserved from the tracker's active set, once due timers fired, was reported less than 65 s earlier |
| `Sip.UsedDingNeverReused` | api/ring-camera.ts:307-317 | over any run of calls, an id picked from the active set was not used before and differs from every earlier answer's id |
| `Sip.RtpStreamOptions` | api/ring-camera.ts:339-346 | the stream options hold `port` plus the override fields; every override wins, `port` included; otherwise the bound port |
| `Sip.CreateSipSession` | api/ring-camera.ts:326-358 | a session is created iff the options, public address, both ports and the TLS port all resolve; it carries those values with the SRTP merge; the ding reservation happens whatever the other branches do |
| `Sip.OverlappingOnDemandShareDing` | api/ring-camera.ts:171-181 | two overlapping calls that both fall back to on-demand are answered with the same on-demand ding |
| `Sip.SessionsNeverShareDing` | api/ring-camera.ts:309-336 | two successive sessions that both pick from the active set use different dings |
| `Recording.AcquireSession` | api/ring-camera.ts:384-397 | between 1 and 5 attempts, stopping at the first success; no session iff the first five attempts all failed, and then exactly five attempts and no sixth |
| `Recording.RecordLiveVideoToFile` | api/ring-camera.ts:367-427 | the file name is refused, with no effect, iff it is empty; otherwise other files are untouched; the attempt count is the position of the first acquired session, or five; the `.mp4` exists afterwards iff the job succeeded; the `.h264` is left iff the session start or the remux failed; "remux failed" iff everything before the remux succeeded; "session not created" iff all five attempts failed; "start failed" iff a session was acquired and its start rejected; "packets not received" iff it started and no packet came; success iff everything succeeded; the session is stopped iff it started; the capture delay is the duration minus the 500 ms grace |

## Left out

- REST request construction (`doorbotUrl`, `clientApi`), `getHealth`,
  `getHistory`, `getRecording` and `startVideoOnDemand`: foreign network
  calls. Their results enter only as oracle answers.
- `getBatteryLevel` and `onBatteryLevel`: floating-point string parsing
  (`Number.parseFloat`, `isNaN`).
- The RxJS machinery (`BehaviorSubject`, `share`, `publishReplay`,
  `refCount`, `take`): streams are modelled as their emission sequences. The
  replay-to-late-subscribers behaviour is not modelled.
- Real timers and `Date.now`: replaced by `now` inputs, `Expire`/`Tick`
  events, and arrival times carried by each timestamp answer. The 500 ms
  delay between polls is not modelled as elapsed time.
- The 500 ms race in each acquisition attempt: an attempt is success or
  failure. A losing attempt keeps running and can still reserve a ding;
  that is not modelled.
- `onRequestUpdate` / `onRequestActiveDings` notifications: they carry no
  data.
- UDP sockets, `bindToRandomPort`, `getPublicIp`, `get-port`, `SipSession`,
  `H264Builder`, the ffmpeg `exec` call and `fs`: I/O and external processes.
  Their outcomes are inputs, and the file system is a set of paths. The H264
  writer is taken to create the `.h264` file when it is constructed;
  `H264Builder` is not part of this model.
- `ring-types` (`batteryCameraKinds`, `RingCameraModel`) is not part of this
  model: the battery kinds are a parameter of `Device.NewCamera`, and the
  model name is not modelled.
- `Recording.RecordLiveVideoToFile`: `duration` is whole seconds; fractional durations are not modelled.
- `Recording.RecordLiveVideoToFile`: the remux command is built by unquoted string concatenation and run through a shell (lines 418-425), so a file name with spaces or shell syntax is split or interpreted, and can create or truncate other files; the model assumes a file name the shell passes through unchanged.
- `Recording.RecordLiveVideoToFile`: a failed ffmpeg run is assumed to leave no partial `.mp4`; what ffmpeg writes before failing is not modelled.
- `Recording.RecordLiveVideoToFile`: the delay after the grace period is recorded as its argument, which is negative for a duration under one second; how the timer treats a negative delay is not modelled.
- `Snapshot.Join`: a refresh is applied as one step where a caller starts it. Overlapping refreshes are not modelled. They can happen because lines 282 and 292 clear the in-progress marker unconditionally, so a new caller may start a second refresh while the first is still polling.
- `hasLowBattery` (lines 108-110): a one-field string comparison that nothing in the modelled core reads.
- `Sip.CreateSipSession`: it does not say which branch's error is raised when several fail, because that depends on timing.
- Logging (`logInfo`, `logError`, `console.log`).
- `ActiveDings.Publish`: the motion log assumes one `onMotionDetected` subscriber from construction on. Because of `refCount` (line 71), emissions before the first subscription are lost, and a subscription made after all subscribers left starts `distinctUntilChanged` afresh; neither is modelled.

=== FILE: device.dfy ===
/**
 * The device-state part of `RingCamera`: the camera record published on
 * `onData`, the capability flags fixed at construction, the derived
 * offline view, and the two capability-gated commands
 * `setLight` and `setSiren`.
 */
module Device {
  import opened Wrappers

  datatype LightState = On | Off

  datatype SirenStatus = SirenStatus(secondsRemaining: int)

  /** The string-valued alert fields of a camera record. */
  datatype Alerts = Alerts(connection: string, battery: string)

  /** The subset of the vendor's camera record that the core reads or writes. */
  datatype CameraData = CameraData(
    id: int,
    kind: string,
    description: string,
    ledStatus: Option<LightState>,
    sirenStatus: Option<SirenStatus>,
    alerts: Alerts
  )

  /** Battery-powered device kinds take a ten minute snapshot lifetime, the others thirty seconds. */
  const BatterySnapshotLifeTime: nat := 600 * 1000
  const WiredSnapshotLifeTime: nat := 30 * 1000

  /**
   * A camera: what is fixed at construction from the initial record, and the
   * current record together with every record published on `onData`
   * (a behaviour subject, so the history starts with the initial record).
   */
  datatype Camera = Camera(
    id: int,
    deviceType: string,
    hasLight: bool,
    hasSiren: bool,
    hasBattery: bool,
    snapshotLifeTime: nat,
    published: seq<CameraData>
  ) {
    /** The camera is well formed: it has published at least its initial record. */
    ghost predicate Valid() {
      |published| > 0
    }

    /** The current record, as `onData.getValue()` returns it. */
    function Data(): CameraData
      requires Valid()
    {
      published[|published| - 1]
    }
  }

  /** The outcome of a REST request whose body the core ignores. */
  datatype RequestOutcome = RequestOk | RequestFailed

  datatype CommandError = CommandRequestFailed

  /** Builds the camera from its initial record and the vendor's list of battery device kinds. */
  function NewCamera(initial: CameraData, batteryKinds: seq<string>): (c: Camera)
    ensures c.Valid() && c.published == [initial]
    ensures c.id == initial.id && c.deviceType == initial.kind
    ensures c.hasLight <==> initial.ledStatus.Some?
    ensures c.hasSiren <==> initial.sirenStatus.Some?
    ensures c.hasBattery <==> initial.kind in batteryKinds
    ensures c.hasBattery ==> c.snapshotLifeTime == 600000
    ensures !c.hasBattery ==> c.snapshotLifeTime == 30000
  {
    var battery := initial.kind in batteryKinds;
    Camera(
      initial.id,
      initial.kind,
      initial.ledStatus.Some?,
      initial.sirenStatus.Some?,
      battery,
      if battery then BatterySnapshotLifeTime else WiredSnapshotLifeTime,
      [initial]
    )
  }

  /** Publishes a new record; the capability flags and the lifetime never change. */
  function UpdateData(c: Camera, update: CameraData): (c': Camera)
    requires c.Valid()
    ensures c'.Valid() && c'.Data() == update
    ensures c.published < c'.published && |c'.published| == |c.published| + 1
    ensures c'.id == c.id && c'.deviceType == c.deviceType
    ensures c'.hasLight == c.hasLight && c'.hasSiren == c.hasSiren && c'.hasBattery == c.hasBattery
    ensures c'.snapshotLifeTime == c.snapshotLifeTime
  {
    c.(published := c.published + [update])
  }

  /** `isOffline`, read from whichever record is current when it is asked. */
  predicate IsOffline(d: CameraData) {
    d.alerts.connection == "offline"
  }

  /**
   * `setLight(on)`: without a light nothing is requested and the answer is
   * false; otherwise the PUT request is made and, once it succeeds, a copy of
   * the record with only `led_status` changed is published.
   */
  function SetLight(c: Camera, on: bool, request: RequestOutcome): (r: (Camera, Result<bool, CommandError>))
    requires c.Valid()
    ensures r.0.Valid()
    ensures !c.hasLight ==> r.0 == c && r.1 == Ok(false)
    ensures c.hasLight && request.RequestFailed? ==> r.0 == c && r.1.Err?
    ensures c.hasLight && request.RequestOk? ==>
      && r.1 == Ok(true)
      && c.published < r.0.published
      && |r.0.published| == |c.published| + 1
      && r.0.Data().ledStatus == Some(if on then On else Off)
      && r.0.Data().(ledStatus := c.Data().ledStatus) == c.Data()
    ensures r.1 == Ok(true) <==> c.hasLight && request.RequestOk?
    ensures r.0 == c.(published := r.0.published)
    ensures r.0.hasLight == c.hasLight && r.0.hasSiren == c.hasSiren
    ensures r.0.snapshotLifeTime == c.snapshotLifeTime
  {
    if !c.hasLight then (c, Ok(false))
    else if request.RequestFailed? then (c, Err(CommandRequestFailed))
    else
      var state := if on then On else Off;
      (UpdateData(c, c.Data().(ledStatus := Some(state))), Ok(true))
  }

  /**
   * `setSiren(on)`: like `setLight`, but whatever `on` is, the published
   * record reports a siren with one second remaining.
   */
  function SetSiren(c: Camera, on: bool, request: RequestOutcome): (r: (Camera, Result<bool, CommandError>))
    requires c.Valid()
    ensures r.0.Valid()
    ensures !c.hasSiren ==> r.0 == c && r.1 == Ok(false)
    ensures c.hasSiren && request.RequestFailed? ==> r.0 == c && r.1.Err?
    ensures c.hasSiren && request.RequestOk? ==>
      && r.1 == Ok(true)
      && c.published < r.0.published
      && |r.0.published| == |c.published| + 1
      && r.0.Data().sirenStatus == Some(SirenStatus(1))
      && r.0.Data().(sirenStatus := c.Data().sirenStatus) == c.Data()
    ensures r.1 == Ok(true) <==> c.hasSiren && request.RequestOk?
    ensures r.0 == c.(published := r.0.published)
    ensures r.0.hasLight == c.hasLight && r.0.hasSiren == c.hasSiren
    ensures r.0.snapshotLifeTime == c.snapshotLifeTime
  {
    if !c.hasSiren then (c, Ok(false))
    else if request.RequestFailed? then (c, Err(CommandRequestFailed))
    else (UpdateData(c, c.Data().(sirenStatus := Some(SirenStatus(1)))), Ok(true))
  }

  /**
   * A light command followed by the opposite one leaves the light as it was
   * before the first, when the camera started with the light in a known state.
   */
  lemma LightToggleRestores(c: Camera, on: bool)
    requires c.Valid() && c.hasLight
    requires c.Data().ledStatus == Some(if on then Off else On)
    ensures
      var (c1, _) := SetLight(c, on, RequestOk);
      var (c2, r2) := SetLight(c1, !on, RequestOk);
      r2 == Ok(true) && c2.Data() == c.Data() && c.published < c2.published
  {
    var (c1, _) := SetLight(c, on, RequestOk);
    var (c2, _) := SetLight(c1, !on, RequestOk);
  }
}

=== FILE: dings.dfy ===
/**
 * The active-ding tracker of `RingCamera`: `processActiveDing`, its 65 s
 * expiry timer, the `onNewDing` / `onDoorbellPressed` streams and the
 * deduplicated `onMotionDetected` status.
 *
 * Streams are modelled as the sequence of values they have emitted. Each
 * reported ding gets a fresh handle, which stands for the object identity the
 * expiry callback compares with `!==`.
 */
module ActiveDings {

  datatype DingKind = Motion | Doorbell | OnDemand

  /** One event reported by the backend (`ActiveDing`). `Doorbell` is the vendor's `'ding'` kind. */
  datatype Ding = Ding(idStr: string, kind: DingKind, motion: bool, sipTo: string, sipFrom: string)

  /** An active ding together with its identity and the time it was reported (ms). */
  datatype Entry = Entry(handle: nat, ding: Ding, reportedAt: int)

  /** Dings are dropped 65 seconds after they are reported. */
  const DingLifeTimeMs: int := 65 * 1000

  /**
   * The tracker: the current value of `onActiveDings`, every value it has
   * published, the `onNewDing` emissions, and the `onMotionDetected` emissions.
   */
  datatype Tracker = Tracker(
    active: seq<Entry>,
    nextHandle: nat,
    published: seq<seq<Entry>>,
    newDings: seq<Ding>,
    motionLog: seq<bool>
  )

  predicate IsMotion(d: Ding) {
    d.motion || d.kind == Motion
  }

  /** The value `onMotionDetected` maps an active-ding list to, computed from the newest entry back. */
  predicate MotionIn(active: seq<Entry>)
    decreases |active|
  {
    active != [] && (MotionIn(active[..|active| - 1]) || IsMotion(active[|active| - 1].ding))
  }

  /** `MotionIn` is `dings.some(ding => ding.motion || ding.kind === 'motion')`. */
  lemma {:induction false} MotionInIffSome(active: seq<Entry>)
    ensures MotionIn(active) <==> exists i :: 0 <= i < |active| && IsMotion(active[i].ding)
    decreases |active|
  {
    if active != [] {
      var init := active[..|active| - 1];
      MotionInIffSome(init);
      if MotionIn(init) {
        var i :| 0 <= i < |init| && IsMotion(init[i].ding);
        assert active[i] == init[i];
      }
      if exists i :: 0 <= i < |active| && IsMotion(active[i].ding) {
        var i :| 0 <= i < |active| && IsMotion(active[i].ding);
        if i < |init| {
          assert init[i] == active[i];
        }
      }
    }
  }

  /** The motion flag of every published active-ding list, in order. */
  function MotionFlags(history: seq<seq<Entry>>): (flags: seq<bool>)
    ensures |flags| == |history|
    ensures |history| > 0 ==> flags[|flags| - 1] == MotionIn(history[|history| - 1])
  {
    if history == [] then [] else MotionFlags(history[..|history| - 1]) + [MotionIn(history[|history| - 1])]
  }

  /**
   * Reference definition of `distinctUntilChanged` over a whole history:
   * a value is kept when it is the first one or differs from the value
   * just before it.
   */
  function Dedup(xs: seq<bool>): (d: seq<bool>)
    ensures |d| <= |xs|
    ensures |xs| > 0 ==> |d| > 0
    decreases |xs|
  {
    if xs == [] then []
    else if |xs| == 1 || xs[|xs| - 1] != xs[|xs| - 2] then Dedup(xs[..|xs| - 1]) + [xs[|xs| - 1]]
    else Dedup(xs[..|xs| - 1])
  }

  /** No two consecutive values are equal. */
  ghost predicate NoStutter(xs: seq<bool>) {
    forall i :: 0 < i < |xs| ==> xs[i - 1] != xs[i]
  }

  /** `Dedup` keeps the last value, never stutters, and is empty only for the empty input. */
  lemma {:induction false} DedupFacts(xs: seq<bool>)
    ensures |Dedup(xs)| <= |xs|
    ensures |xs| > 0 ==> |Dedup(xs)| > 0 && Dedup(xs)[|Dedup(xs)| - 1] == xs[|xs| - 1] && Dedup(xs)[0] == xs[0]
    ensures NoStutter(Dedup(xs))
    decreases |xs|
  {
    if |xs| > 1 {
      var init := xs[..|xs| - 1];
      DedupFacts(init);
      assert init[|init| - 1] == xs[|xs| - 2];
      assert init[0] == xs[0];
    }
  }

  /** Handles are pairwise distinct: no two active entries share an identity. */
  ghost predicate UniqueHandles(s: seq<Entry>) {
    forall i, j :: 0 <= i < j < |s| ==> s[i].handle != s[j].handle
  }

  /**
   * The tracker invariant: identities are unique and were all issued, the
   * last published list is the current one, and the motion emissions are
   * exactly the deduplicated motion flags of the published lists.
   */
  ghost predicate Valid(t: Tracker) {
    && UniqueHandles(t.active)
    && (forall i :: 0 <= i < |t.active| ==> t.active[i].handle < t.nextHandle)
    && |t.published| > 0
    && t.published[|t.published| - 1] == t.active
    && t.motionLog == Dedup(MotionFlags(t.published))
  }

  /** The fresh tracker: `onActiveDings` starts as a behaviour subject holding `[]`. */
  function Init(): (t: Tracker)
    ensures Valid(t)
    ensures t.active == [] && t.motionLog == [false]
  {
    Tracker([], 0, [[]], [], [false])
  }

  /** One step of `distinctUntilChanged`: `m` is emitted only when it differs from the last emission. */
  function NextLog(log: seq<bool>, m: bool): (log': seq<bool>)
    requires |log| > 0
    ensures log <= log' && |log'| <= |log| + 1
    ensures |log'| > 0 && log'[|log'| - 1] == m
  {
    if log[|log| - 1] == m then log else log + [m]
  }

  /** `onActiveDings.next(active)` and the motion emission it may cause. */
  function Publish(t: Tracker, active: seq<Entry>): (t': Tracker)
    requires Valid(t)
    requires UniqueHandles(active)
    requires forall i :: 0 <= i < |active| ==> active[i].handle < t.nextHandle
    ensures Valid(t')
    ensures t'.active == active && t'.nextHandle == t.nextHandle && t'.newDings == t.newDings
    ensures t.motionLog <= t'.motionLog && |t'.motionLog| <= |t.motionLog| + 1
    ensures |t'.motionLog| > 0 && t'.motionLog[|t'.motionLog| - 1] == MotionIn(active)
  {
    PublishValid(t, active);
    Tracker(active, t.nextHandle, t.published + [active], t.newDings, NextLog(t.motionLog, MotionIn(active)))
  }

  /** Publishing keeps the tracker invariant: the motion emissions grow exactly as `distinctUntilChanged` prescribes. */
  lemma PublishValid(t: Tracker, active: seq<Entry>)
    requires Valid(t)
    requires UniqueHandles(active)
    requires forall i :: 0 <= i < |active| ==> active[i].handle < t.nextHandle
    ensures |t.motionLog| > 0
    ensures Valid(Tracker(active, t.nextHandle, t.published + [active], t.newDings, NextLog(t.motionLog, MotionIn(active))))
  {
    MotionFlagsSnoc(t.published, active);
    DedupSnoc(MotionFlags(t.published), MotionIn(active));
  }

  lemma MotionFlagsSnoc(history: seq<seq<Entry>>, active: seq<Entry>)
    ensures MotionFlags(history + [active]) == MotionFlags(history) + [MotionIn(active)]
  {
    var hs := history + [active];
    assert hs[..|hs| - 1] == history;
  }

  /** Deduplicating one more value is one `distinctUntilChanged` step. */
  lemma DedupSnoc(xs: seq<bool>, m: bool)
    requires |xs| > 0
    ensures |Dedup(xs)| > 0
    ensures Dedup(xs + [m]) == NextLog(Dedup(xs), m)
  {
    var ys := xs + [m];
    assert ys[..|ys| - 1] == xs;
    assert ys[|ys| - 2] == xs[|xs| - 1];
    DedupFacts(xs);
  }

  /**
   * `processActiveDing(ding)` at time `now`: emits the ding on `onNewDing`,
   * then publishes the active list with the ding appended.
   */
  function Report(t: Tracker, ding: Ding, now: int): (t': Tracker)
    requires Valid(t)
    ensures Valid(t')
    ensures t'.active == t.active + [Entry(t.nextHandle, ding, now)]
    ensures t'.newDings == t.newDings + [ding]
    ensures t'.nextHandle == t.nextHandle + 1
    ensures t.motionLog <= t'.motionLog && |t'.motionLog| <= |t.motionLog| + 1
    ensures |t'.motionLog| > 0
    ensures t'.motionLog[|t'.motionLog| - 1] <==> MotionIn(t.active) || IsMotion(ding)
  {
    var e := Entry(t.nextHandle, ding, now);
    var t0 := t.(newDings := t.newDings + [ding], nextHandle := t.nextHandle + 1);
    AppendFreshHandle(t.active, e);
    MotionAppend(t.active, e);
    Publish(t0, t.active + [e])
  }

  lemma AppendFreshHandle(s: seq<Entry>, e: Entry)
    requires UniqueHandles(s)
    requires forall i :: 0 <= i < |s| ==> s[i].handle < e.handle
    ensures UniqueHandles(s + [e])
    ensures forall i :: 0 <= i < |s + [e]| ==> (s + [e])[i].handle < e.handle + 1
  {
  }

  lemma MotionAppend(s: seq<Entry>, e: Entry)
    ensures MotionIn(s + [e]) <==> MotionIn(s) || IsMotion(e.ding)
  {
    assert (s + [e])[..|s|] == s;
  }

  /** The active list without the entries carrying `handle`, in their original order (`filter(d => d !== ding)`). */
  function RemoveHandle(s: seq<Entry>, handle: nat): (r: seq<Entry>)
    ensures |r| <= |s|
    decreases |s|
  {
    if s == [] then []
    else if s[0].handle == handle then RemoveHandle(s[1..], handle)
    else [s[0]] + RemoveHandle(s[1..], handle)
  }

  /** Removal keeps exactly the entries whose identity differs. */
  lemma {:induction false} RemoveHandleMembers(s: seq<Entry>, handle: nat)
    ensures forall e :: e in RemoveHandle(s, handle) <==> e in s && e.handle != handle
    decreases |s|
  {
    if s != [] {
      RemoveHandleMembers(s[1..], handle);
      assert s == [s[0]] + s[1..];
    }
  }

  /** Removal introduces no identity: one that no entry carried is still carried by none. */
  lemma {:induction false} RemoveAvoids(s: seq<Entry>, handle: nat, x: nat)
    requires forall i :: 0 <= i < |s| ==> s[i].handle != x
    ensures forall i :: 0 <= i < |RemoveHandle(s, handle)| ==> RemoveHandle(s, handle)[i].handle != x
    decreases |s|
  {
    if s != [] {
      RemoveAvoids(s[1..], handle, x);
    }
  }

  /** Removal keeps every identity below a bound. */
  lemma {:induction false} RemoveKeepsBound(s: seq<Entry>, handle: nat, n: nat)
    requires forall i :: 0 <= i < |s| ==> s[i].handle < n
    ensures forall i :: 0 <= i < |RemoveHandle(s, handle)| ==> RemoveHandle(s, handle)[i].handle < n
    decreases |s|
  {
    if s != [] {
      RemoveKeepsBound(s[1..], handle, n);
    }
  }

  /** Removing an identity that is absent leaves the list unchanged. */
  lemma {:induction false} RemoveAbsent(s: seq<Entry>, handle: nat)
    requires forall i :: 0 <= i < |s| ==> s[i].handle != handle
    ensures RemoveHandle(s, handle) == s
    decreases |s|
  {
    if s != [] {
      RemoveAbsent(s[1..], handle);
    }
  }

  /** The tail of a list with unique identities has unique identities. */
  lemma TailUnique(s: seq<Entry>)
    requires |s| > 0 && UniqueHandles(s)
    ensures UniqueHandles(s[1..])
    ensures forall i :: 0 <= i < |s[1..]| ==> s[1..][i].handle != s[0].handle
  {
    forall i, j | 0 <= i < j < |s[1..]| ensures s[1..][i].handle != s[1..][j].handle {
      assert s[1..][i] == s[i + 1] && s[1..][j] == s[j + 1];
    }
    forall i | 0 <= i < |s[1..]| ensures s[1..][i].handle != s[0].handle {
      assert s[1..][i] == s[i + 1];
    }
  }

  /** With unique identities, removal takes out exactly the one entry and keeps the others in order. */
  lemma {:induction false} RemoveExactlyOne(s: seq<Entry>, k: nat)
    requires k < |s| && UniqueHandles(s)
    ensures RemoveHandle(s, s[k].handle) == s[..k] + s[k + 1..]
    decreases |s|
  {
    var tail := s[1..];
    TailUnique(s);
    if k == 0 {
      RemoveAbsent(tail, s[0].handle);
    } else {
      var h := s[k].handle;
      assert tail[k - 1] == s[k];
      assert s[0].handle != h;
      assert RemoveHandle(s, h) == [s[0]] + RemoveHandle(tail, h);
      RemoveExactlyOne(tail, k - 1);
      assert tail[..k - 1] == s[1..k];
      assert tail[k..] == s[k + 1..];
      assert s[..k] == [s[0]] + s[1..k];
    }
  }

  /** Removal keeps identities unique. */
  lemma {:induction false} RemoveKeepsUnique(s: seq<Entry>, handle: nat)
    requires UniqueHandles(s)
    ensures UniqueHandles(RemoveHandle(s, handle))
    decreases |s|
  {
    if s != [] {
      TailUnique(s);
      RemoveKeepsUnique(s[1..], handle);
      if s[0].handle != handle {
        RemoveAvoids(s[1..], handle, s[0].handle);
        var r := RemoveHandle(s[1..], handle);
        var r' := [s[0]] + r;
        forall i, j | 0 <= i < j < |r'| ensures r'[i].handle != r'[j].handle {
          assert r'[j] == r[j - 1];
          if i > 0 {
            assert r'[i] == r[i - 1];
          }
        }
      }
    }
  }

  /** The expiry callback of the ding with identity `handle`: publishes the active list without it. */
  function Expire(t: Tracker, handle: nat): (t': Tracker)
    requires Valid(t)
    ensures Valid(t')
    ensures t'.active == RemoveHandle(t.active, handle)
    ensures t'.newDings == t.newDings && t'.nextHandle == t.nextHandle
    ensures t.motionLog <= t'.motionLog && |t'.motionLog| <= |t.motionLog| + 1
    ensures |t'.motionLog| > 0
    ensures t'.motionLog[|t'.motionLog| - 1] == MotionIn(t'.active)
  {
    RemoveKeepsUnique(t.active, handle);
    RemoveKeepsBound(t.active, handle, t.nextHandle);
    Publish(t, RemoveHandle(t.active, handle))
  }

  /** An expiry removes exactly the expiring ding and keeps every other ding in its relative order. */
  lemma ExpireRemovesExactly(t: Tracker, k: nat)
    requires Valid(t) && k < |t.active|
    ensures Expire(t, t.active[k].handle).active == t.active[..k] + t.active[k + 1..]
  {
    RemoveExactlyOne(t.active, k);
  }

  /** Reporting a ding and then firing its own expiry restores the active list. */
  lemma ReportThenExpire(t: Tracker, ding: Ding, now: int)
    requires Valid(t)
    ensures Expire(Report(t, ding, now), t.nextHandle).active == t.active
  {
    var t1 := Report(t, ding, now);
    RemoveExactlyOne(t1.active, |t.active|);
    assert t1.active[..|t.active|] == t.active;
  }

  /** Motion status is true iff some active ding is a motion event or carries the motion flag. */
  lemma MotionStatusTracksActive(t: Tracker)
    requires Valid(t)
    ensures |t.motionLog| > 0
    ensures t.motionLog[|t.motionLog| - 1] <==> exists i :: 0 <= i < |t.active| && (t.active[i].ding.motion || t.active[i].ding.kind == Motion)
    ensures NoStutter(t.motionLog)
  {
    DedupFacts(MotionFlags(t.published));
    MotionInIffSome(t.active);
  }

  /** `onDoorbellPressed`: the `onNewDing` emissions of kind `'ding'`, in order. */
  function DoorbellPresses(newDings: seq<Ding>): (presses: seq<Ding>)
    ensures forall i :: 0 <= i < |presses| ==> presses[i].kind == Doorbell
    ensures forall d :: d in presses <==> d in newDings && d.kind == Doorbell
    ensures |presses| <= |newDings|
  {
    if newDings == [] then []
    else
      var rest := DoorbellPresses(newDings[..|newDings| - 1]);
      var d := newDings[|newDings| - 1];
      if d.kind == Doorbell then rest + [d] else rest
  }

  /** A report extends the doorbell stream by the ding exactly when it is a doorbell press. */
  lemma ReportDoorbell(t: Tracker, ding: Ding, now: int)
    requires Valid(t)
    ensures var t' := Report(t, ding, now);
      DoorbellPresses(t'.newDings) == if ding.kind == Doorbell then DoorbellPresses(t.newDings) + [ding] else DoorbellPresses(t.newDings)
  {
    var t' := Report(t, ding, now);
    assert t'.newDings[..|t'.newDings| - 1] == t.newDings;
  }

  // ---- The 65 s expiry timers ----

  /** The ding's timer has fired by `now`. */
  predicate Due(e: Entry, now: int) {
    e.reportedAt + DingLifeTimeMs <= now
  }

  /** The identities whose timers are due at `now`, in report order. */
  function DueHandles(s: seq<Entry>, now: int): (hs: seq<nat>)
    ensures forall h :: h in hs <==> exists i :: 0 <= i < |s| && s[i].handle == h && Due(s[i], now)
    decreases |s|
  {
    if s == [] then []
    else
      var rest := DueHandles(s[1..], now);
      assert forall i :: 0 < i < |s| ==> s[i] == s[1..][i - 1];
      if Due(s[0], now) then [s[0].handle] + rest else rest
  }

  /** Removes the given identities one after another. */
  function RemoveAll(s: seq<Entry>, hs: seq<nat>): seq<Entry>
    decreases |hs|
  {
    if hs == [] then s else RemoveAll(RemoveHandle(s, hs[0]), hs[1..])
  }

  /** Fires the expiry callbacks of the given identities one after another. */
  function ExpireAll(t: Tracker, hs: seq<nat>): (t': Tracker)
    requires Valid(t)
    ensures Valid(t')
    ensures t'.active == RemoveAll(t.active, hs)
    ensures t'.newDings == t.newDings && t'.nextHandle == t.nextHandle
    decreases |hs|
  {
    if hs == [] then t else ExpireAll(Expire(t, hs[0]), hs[1..])
  }

  /** Time advances to `now` with no report in between: every timer due by then fires. */
  function Tick(t: Tracker, now: int): (t': Tracker)
    requires Valid(t)
    ensures Valid(t')
    ensures t'.newDings == t.newDings && t'.nextHandle == t.nextHandle
  {
    ExpireAll(t, DueHandles(t.active, now))
  }

  /** The active entries not yet due at `now`, in order. */
  function Live(s: seq<Entry>, now: int): (r: seq<Entry>)
    ensures forall e :: e in r <==> e in s && !Due(e, now)
    decreases |s|
  {
    if s == [] then []
    else if Due(s[0], now) then Live(s[1..], now)
    else [s[0]] + Live(s[1..], now)
  }

  /** Keeps the entries whose identity is not in `hs`, in order. */
  function Without(s: seq<Entry>, hs: seq<nat>): (r: seq<Entry>)
    decreases |s|
  {
    if s == [] then []
    else if s[0].handle in hs then Without(s[1..], hs)
    else [s[0]] + Without(s[1..], hs)
  }

  lemma {:induction false} RemoveThenWithout(s: seq<Entry>, h: nat, hs: seq<nat>)
    ensures Without(RemoveHandle(s, h), hs) == Without(s, [h] + hs)
    decreases |s|
  {
    if s != [] {
      RemoveThenWithout(s[1..], h, hs);
    }
  }

  lemma {:induction false} RemoveAllIsWithout(s: seq<Entry>, hs: seq<nat>)
    ensures RemoveAll(s, hs) == Without(s, hs)
    decreases |hs|
  {
    if hs == [] {
      WithoutNothing(s);
    } else {
      RemoveAllIsWithout(RemoveHandle(s, hs[0]), hs[1..]);
      RemoveThenWithout(s, hs[0], hs[1..]);
      assert [hs[0]] + hs[1..] == hs;
    }
  }

  lemma {:induction false} WithoutNothing(s: seq<Entry>)
    ensures Without(s, []) == s
    decreases |s|
  {
    if s != [] {
      WithoutNothing(s[1..]);
    }
  }

  /** Dropping the identities of the due entries is dropping the due entries, when identities are unique. */
  lemma {:induction false} WithoutDueIsLive(s: seq<Entry>, whole: seq<Entry>, now: int)
    requires UniqueHandles(whole)
    requires forall e :: e in s ==> e in whole
    ensures Without(s, DueHandles(whole, now)) == Live(s, now)
    decreases |s|
  {
    if s != [] {
      assert s[0] in s;
      assert forall e :: e in s[1..] ==> e in s;
      WithoutDueIsLive(s[1..], whole, now);
      var hs := DueHandles(whole, now);
      if Due(s[0], now) {
        var k :| 0 <= k < |whole| && whole[k] == s[0];
        assert s[0].handle in hs;
      }
    }
  }

  /** After a tick, the active set is exactly the dings reported less than 65 s before `now`, in order. */
  lemma TickKeepsLive(t: Tracker, now: int)
    requires Valid(t)
    ensures Tick(t, now).active == Live(t.active, now)
    ensures forall i :: 0 <= i < |Tick(t, now).active| ==> now - Tick(t, now).active[i].reportedAt < DingLifeTimeMs
  {
    RemoveAllIsWithout(t.active, DueHandles(t.active, now));
    WithoutDueIsLive(t.active, t.active, now);
    var a := Tick(t, now).active;
    forall i | 0 <= i < |a| ensures now - a[i].reportedAt < DingLifeTimeMs {
      assert a[i] in Live(t.active, now);
    }
  }

  /** A ding reported at T is still active at T + 64 s and gone at T + 66 s. */
  lemma DingLifeTime(t: Tracker, ding: Ding, T: int)
    requires Valid(t)
    ensures var t1 := Report(t, ding, T);
      && Entry(t.nextHandle, ding, T) in Tick(t1, T + 64000).active
      && Entry(t.nextHandle, ding, T) !in Tick(t1, T + 66000).active
  {
    var t1 := Report(t, ding, T);
    var e := Entry(t.nextHandle, ding, T);
    assert t1.active[|t.active|] == e;
    assert e in t1.active;
    TickKeepsLive(t1, T + 64000);
    assert !Due(e, T + 64000);
    assert e in Live(t1.active, T + 64000);
    TickKeepsLive(t1, T + 66000);
    assert Due(e, T + 66000);
    assert e !in Live(t1.active, T + 66000);
  }
}

=== FILE: recording.dfy ===
/**
 * `recordLiveVideoToFile`: the bounded session-acquisition retry loop, the
 * no-packet decision after the 500 ms grace period, and the effect on the
 * files named after the recording.
 *
 * Each acquisition attempt is an oracle entry: the session created within
 * 500 ms, or `None` for an attempt that failed or timed out. The file
 * system is the set of existing paths; starting the session, the packet
 * stream and the remux step are reduced to three flags.
 */
module Recording {
  import opened Wrappers
  import opened Sip

  const MaxSessionAttempts: nat := 5
  const PacketGraceMs: nat := 500

  /** The outcome of attempt `i`; attempts beyond the oracle time out. */
  function AttemptAt(attempts: seq<Option<SessionParams>>, i: nat): Option<SessionParams> {
    if i < |attempts| then attempts[i] else None
  }

  /**
   * The retry loop: at most five attempts, stopping at the first session.
   * An attempt not settled within 500 ms counts as failed, so the oracle
   * entry is `None` for it. After five failures no sixth attempt is made.
   */
  method AcquireSession(attempts: seq<Option<SessionParams>>) returns (session: Option<SessionParams>, made: nat)
    ensures 1 <= made <= MaxSessionAttempts
    ensures forall j :: 0 <= j < made - 1 ==> AttemptAt(attempts, j).None?
    ensures session.Some? ==> session == AttemptAt(attempts, made - 1)
    ensures session.None? <==> forall j :: 0 <= j < MaxSessionAttempts ==> AttemptAt(attempts, j).None?
    ensures session.None? ==> made == MaxSessionAttempts
  {
    var timeouts := 0;
    session := None;
    made := 0;
    while timeouts < MaxSessionAttempts && session.None?
      invariant 0 <= timeouts <= MaxSessionAttempts
      invariant made == if session.Some? then timeouts + 1 else timeouts
      invariant forall j :: 0 <= j < timeouts ==> AttemptAt(attempts, j).None?
      invariant session.Some? ==> timeouts < MaxSessionAttempts && session == AttemptAt(attempts, timeouts)
      decreases MaxSessionAttempts - timeouts, if session.None? then 1 else 0
    {
      session := AttemptAt(attempts, timeouts);
      made := made + 1;
      if session.None? {
        timeouts := timeouts + 1;
      }
    }
  }

  datatype RecordError =
    | FilenameRequired    // an empty file name
    | SessionNotCreated   // all five acquisition attempts failed
    | SessionStartFailed  // starting the acquired session was rejected
    | PacketsNotReceived  // no media packet within the grace period
    | RemuxFailed         // the external remux step failed

  function H264Path(filename: string): string { filename + ".h264" }
  function Mp4Path(filename: string): string { filename + ".mp4" }

  /**
   * The recording job: how it ended, the files afterwards, the attempts made,
   * whether the acquired session was stopped, and the argument of the delay
   * that follows the grace period (ms; negative for a duration under one second).
   */
  datatype Job = Job(result: Result<(), RecordError>, files: set<string>, attempts: nat, stopped: bool, captureDelayMs: int)

  /**
   * `recordLiveVideoToFile(filename, duration)` with `duration` in whole
   * seconds. The H264 writer is taken to create the `.h264` file when it is
   * constructed, which happens before the session is started.
   */
  method RecordLiveVideoToFile(filename: string, duration: int, files: set<string>,
                               attempts: seq<Option<SessionParams>>, startOk: bool, packetReceived: bool, remuxOk: bool)
    returns (job: Job)
    ensures filename == [] ==> job == Job(Err(FilenameRequired), files, 0, false, 0)
    ensures job.result == Err(FilenameRequired) <==> filename == []
    ensures filename != [] && job.result != Err(SessionNotCreated) ==>
      && job.attempts >= 1
      && AttemptAt(attempts, job.attempts - 1).Some?
      && forall j :: 0 <= j < job.attempts - 1 ==> AttemptAt(attempts, j).None?
    ensures filename != [] ==>
      && job.files - {H264Path(filename), Mp4Path(filename)} == files - {H264Path(filename), Mp4Path(filename)}
      && (Mp4Path(filename) in job.files <==> job.result.Ok?)
      && (H264Path(filename) in job.files <==> job.result == Err(RemuxFailed) || job.result == Err(SessionStartFailed))
      && 1 <= job.attempts <= MaxSessionAttempts
    ensures job.result == Err(SessionNotCreated) <==>
      filename != [] && forall j :: 0 <= j < MaxSessionAttempts ==> AttemptAt(attempts, j).None?
    ensures job.result == Err(SessionNotCreated) ==> job.attempts == MaxSessionAttempts
    ensures job.result == Err(SessionStartFailed) <==>
      filename != [] && !startOk && exists j :: 0 <= j < MaxSessionAttempts && AttemptAt(attempts, j).Some?
    ensures job.result == Err(PacketsNotReceived) <==>
      filename != [] && startOk && !packetReceived && exists j :: 0 <= j < MaxSessionAttempts && AttemptAt(attempts, j).Some?
    ensures job.result == Err(RemuxFailed) <==>
      filename != [] && startOk && packetReceived && !remuxOk && exists j :: 0 <= j < MaxSessionAttempts && AttemptAt(attempts, j).Some?
    ensures job.result.Ok? <==>
      filename != [] && startOk && packetReceived && remuxOk && exists j :: 0 <= j < MaxSessionAttempts && AttemptAt(attempts, j).Some?
    ensures job.stopped <==> job.result.Ok? || job.result == Err(RemuxFailed) || job.result == Err(PacketsNotReceived)
    ensures job.result.Ok? || job.result == Err(RemuxFailed) ==> job.captureDelayMs == duration * 1000 - PacketGraceMs
  {
    if filename == [] {
      return Job(Err(FilenameRequired), files, 0, false, 0);
    }
    var h264 := H264Path(filename);
    var mp4 := Mp4Path(filename);
    assert |h264| != |mp4|;
    var cleared := files - {h264, mp4};
    var session, made := AcquireSession(attempts);
    if session.None? {
      return Job(Err(SessionNotCreated), cleared, made, false, 0);
    }
    var writing := cleared + {h264};
    if !startOk {
      return Job(Err(SessionStartFailed), writing, made, false, 0);
    }
    if !packetReceived {
      return Job(Err(PacketsNotReceived), writing - {h264}, made, true, 0);
    }
    var captureDelayMs := duration * 1000 - PacketGraceMs;
    if !remuxOk {
      return Job(Err(RemuxFailed), writing, made, true, captureDelayMs);
    }
    job := Job(Ok(()), writing + {mp4} - {h264}, made, true, captureDelayMs);
  }
}

=== FILE: sip.dfy ===
/**
 * Session acquisition of `RingCamera`: reserving a ding for a SIP session
 * (`getSipOptions`, `getSipConnectionDetails`) and assembling the session
 * parameters in `createSipSession`, where device-side SRTP options are merged
 * over the bound RTP ports.
 *
 * The public address, the two bound UDP ports and the TLS port are oracle
 * inputs (`None` when that call fails); the SIP session object itself is
 * represented by the parameters it is built from.
 */
module Sip {
  import opened Wrappers
  import opened ActiveDings

  /** The routing fields of the reserved ding. */
  datatype SipOptions = SipOptions(to: string, from: string, dingId: string)

  /** The dings of an active list, in order (what `onActiveDings.getValue()` holds). */
  function DingsOf(active: seq<Entry>): (ds: seq<Ding>)
    ensures |ds| == |active|
    ensures forall i :: 0 <= i < |active| ==> ds[i] == active[i].ding
  {
    seq(|active|, i requires 0 <= i < |active| => active[i].ding)
  }

  /** The position of the newest active ding whose id has not been used for a session yet. */
  function NewestUnused(active: seq<Ding>, used: seq<string>): (r: Option<nat>)
    ensures r.Some? ==> r.value < |active| && active[r.value].idStr !in used
    ensures r.Some? ==> forall j :: r.value < j < |active| ==> active[j].idStr in used
    ensures r.None? ==> forall j :: 0 <= j < |active| ==> active[j].idStr in used
    decreases |active|
  {
    if active == [] then None
    else if active[|active| - 1].idStr !in used then Some(|active| - 1)
    else NewestUnused(active[..|active| - 1], used)
  }

  /**
   * What `getSipConnectionDetails` meets: the video-on-demand request fails,
   * or it succeeds and these dings are reported afterwards, in order.
   */
  datatype VodOracle = VodRequestFailed | VodStarted(later: seq<Ding>)

  /** The position of the first on-demand ding in `later`. */
  function FirstOnDemand(later: seq<Ding>): (r: Option<nat>)
    ensures r.Some? ==> r.value < |later| && later[r.value].kind == OnDemand
    ensures r.Some? ==> forall j :: 0 <= j < r.value ==> later[j].kind != OnDemand
    ensures r.None? ==> forall j :: 0 <= j < |later| ==> later[j].kind != OnDemand
    decreases |later|
  {
    if later == [] then None
    else if later[0].kind == OnDemand then Some(0)
    else match FirstOnDemand(later[1..])
      case None => None
      case Some(k) => Some(k + 1)
  }

  /** How `getSipOptions` settles: with the options (and whether the ding came from the active set), rejected, or never. */
  datatype SipAnswer =
    | Answered(options: SipOptions, fromActive: bool)
    | VodFailed
    | AwaitingOnDemand   // no on-demand ding ever arrives, and nothing times the wait out

  function OptionsOf(d: Ding): SipOptions {
    SipOptions(d.sipTo, d.sipFrom, d.idStr)
  }

  /**
   * `getSipOptions`: the newest unused active ding, or else the on-demand
   * ding the backend reports after a video-on-demand request. The chosen id
   * is appended to the used ids.
   */
  function GetSipOptions(active: seq<Ding>, used: seq<string>, vod: VodOracle): (r: (SipAnswer, seq<string>))
    ensures NewestUnused(active, used).Some? ==>
      var d := active[NewestUnused(active, used).value];
      r.0 == Answered(OptionsOf(d), true)
    ensures NewestUnused(active, used).None? && vod.VodRequestFailed? ==> r.0 == VodFailed
    ensures NewestUnused(active, used).None? && vod.VodStarted? ==>
      match FirstOnDemand(vod.later)
      case Some(k) => r.0 == Answered(OptionsOf(vod.later[k]), false)
      case None => r.0 == AwaitingOnDemand
    ensures r.0.Answered? ==> r.1 == used + [r.0.options.dingId]
    ensures !r.0.Answered? ==> r.1 == used
    ensures r.0.Answered? && r.0.fromActive ==>
      r.0.options.dingId !in used && exists i :: 0 <= i < |active| && OptionsOf(active[i]) == r.0.options
  {
    var answer :=
      match NewestUnused(active, used)
      case Some(k) => Answered(OptionsOf(active[k]), true)
      case None =>
        match vod
        case VodRequestFailed => VodFailed
        case VodStarted(later) =>
          match FirstOnDemand(later)
          case Some(k) => Answered(OptionsOf(later[k]), false)
          case None => AwaitingOnDemand;
    if answer.Answered? then (answer, used + [answer.options.dingId]) else (answer, used)
  }

  /**
   * `getSipOptions` reads the tracker's active set: once time has advanced to
   * `now`, a ding reserved from it was reported less than 65 s before `now`.
   */
  lemma ReservedDingIsRecent(t: Tracker, now: int, used: seq<string>, vod: VodOracle)
    requires Valid(t)
    ensures var active := Tick(t, now).active;
      var a := GetSipOptions(DingsOf(active), used, vod).0;
      a.Answered? && a.fromActive ==>
        exists i :: 0 <= i < |active| && OptionsOf(active[i].ding) == a.options && now - active[i].reportedAt < DingLifeTimeMs
  {
    TickKeepsLive(t, now);
    var active := Tick(t, now).active;
    var ds := DingsOf(active);
    match NewestUnused(ds, used)
    case Some(k) =>
      assert ds[k] == active[k].ding;
      assert now - active[k].reportedAt < DingLifeTimeMs;
    case None =>
  }

  /** A run of `getSipOptions` calls, each against the active list and backend of its moment. */
  function SipRun(used: seq<string>, calls: seq<(seq<Ding>, VodOracle)>): (r: (seq<SipAnswer>, seq<string>))
    ensures |r.0| == |calls|
    decreases |calls|
  {
    if calls == [] then ([], used)
    else
      var (a, used1) := GetSipOptions(calls[0].0, used, calls[0].1);
      var (rest, usedN) := SipRun(used1, calls[1..]);
      ([a] + rest, usedN)
  }

  /**
   * A ding id once used is never picked from the active set again: across any
   * run of calls, an id picked from the active set was not used before the
   * run and differs from the id of every earlier answer.
   */
  lemma {:induction false} UsedDingNeverReused(used: seq<string>, calls: seq<(seq<Ding>, VodOracle)>)
    ensures var (answers, usedN) := SipRun(used, calls);
      && used <= usedN
      && (forall k :: 0 <= k < |answers| && answers[k].Answered? ==> answers[k].options.dingId in usedN)
      && (forall k :: 0 <= k < |answers| && answers[k].Answered? && answers[k].fromActive ==> answers[k].options.dingId !in used)
      && (forall k, l :: 0 <= k < l < |answers| && answers[k].Answered? && answers[l].Answered? && answers[l].fromActive ==>
            answers[l].options.dingId != answers[k].options.dingId)
    decreases |calls|
  {
    if calls != [] {
      var (a, used1) := GetSipOptions(calls[0].0, used, calls[0].1);
      UsedDingNeverReused(used1, calls[1..]);
      var (rest, usedN) := SipRun(used1, calls[1..]);
      var answers := [a] + rest;
      assert SipRun(used, calls) == (answers, usedN);
      assert used <= used1;
      forall k | 0 <= k < |answers| && answers[k].Answered?
        ensures answers[k].options.dingId in usedN
      {
        if k == 0 {
          assert a.options.dingId in used1;
        } else {
          assert answers[k] == rest[k - 1];
        }
      }
      forall k | 0 <= k < |answers| && answers[k].Answered? && answers[k].fromActive
        ensures answers[k].options.dingId !in used
      {
        if k > 0 {
          assert answers[k] == rest[k - 1];
        }
      }
      forall k, l | 0 <= k < l < |answers| && answers[k].Answered? && answers[l].Answered? && answers[l].fromActive
        ensures answers[l].options.dingId != answers[k].options.dingId
      {
        assert answers[l] == rest[l - 1];
        if k == 0 {
          assert a.options.dingId in used1;
        } else {
          assert answers[k] == rest[k - 1];
        }
      }
    }
  }

  /** A value in a JavaScript options object. */
  datatype FieldValue = Num(n: int) | Bytes(b: seq<bv8>) | Text(s: string)

  type Fields = map<string, FieldValue>

  /**
   * `{ port, ...overrides }`: the bound port, with every field of the
   * device's SRTP options spread over it; an override of `port` itself wins.
   */
  function RtpStreamOptions(port: nat, overrides: Option<Fields>): (o: Fields)
    ensures o.Keys == {"port"} + (if overrides.Some? then overrides.value.Keys else {})
    ensures overrides.Some? ==> forall k :: k in overrides.value ==> o[k] == overrides.value[k]
    ensures overrides.None? || "port" !in overrides.value ==> o["port"] == Num(port)
  {
    map["port" := Num(port)] + overrides.GetOr(map[])
  }

  /** The device's SRTP options per stream, either possibly absent. */
  datatype SrtpOverrides = SrtpOverrides(audio: Option<Fields>, video: Option<Fields>)

  datatype RtpOptions = RtpOptions(address: string, audio: Fields, video: Fields)

  /** The parameters a `SipSession` is constructed from. */
  datatype SessionParams = SessionParams(sip: SipOptions, tlsPort: nat, rtp: RtpOptions)

  /** How `createSipSession` settles. Which branch of the join rejects first is timing-dependent, so errors are not told apart. */
  datatype SessionAnswer = Created(params: SessionParams) | SetupFailed | NeverSettles

  /**
   * `createSipSession`: joins `getSipOptions`, the public address lookup and
   * the two port bindings (fail-fast), then asks for a TLS port. The ding is
   * reserved as soon as `getSipOptions` settles, even when another branch of
   * the join fails.
   */
  function CreateSipSession(active: seq<Ding>, used: seq<string>, vod: VodOracle,
                            publicIp: Option<string>, videoPort: Option<nat>, audioPort: Option<nat>,
                            tlsPort: Option<nat>, srtp: SrtpOverrides): (r: (SessionAnswer, seq<string>))
    ensures r.1 == GetSipOptions(active, used, vod).1
    ensures r.0.Created? <==>
      GetSipOptions(active, used, vod).0.Answered? && publicIp.Some? && videoPort.Some? && audioPort.Some? && tlsPort.Some?
    ensures r.0.NeverSettles? <==>
      GetSipOptions(active, used, vod).0.AwaitingOnDemand? && publicIp.Some? && videoPort.Some? && audioPort.Some?
    ensures r.0.Created? ==>
      && r.0.params.sip == GetSipOptions(active, used, vod).0.options
      && r.0.params.rtp.address == publicIp.value
      && r.0.params.tlsPort == tlsPort.value
      && r.0.params.rtp.audio == RtpStreamOptions(audioPort.value, srtp.audio)
      && r.0.params.rtp.video == RtpStreamOptions(videoPort.value, srtp.video)
  {
    var (sip, used') := GetSipOptions(active, used, vod);
    var others := publicIp.Some? && videoPort.Some? && audioPort.Some?;
    var answer :=
      if !others || sip.VodFailed? then SetupFailed
      else if sip.AwaitingOnDemand? then NeverSettles
      else if tlsPort.None? then SetupFailed
      else Created(SessionParams(
        sip.options,
        tlsPort.value,
        RtpOptions(publicIp.value, RtpStreamOptions(audioPort.value, srtp.audio), RtpStreamOptions(videoPort.value, srtp.video))));
    (answer, used')
  }

  /** Two sessions created one after the other, with nothing new reported in between, never share a ding. */
  lemma SessionsNeverShareDing(active: seq<Ding>, used: seq<string>, vod1: VodOracle, vod2: VodOracle,
                               ip: string, v1: nat, a1: nat, t1: nat, v2: nat, a2: nat, t2: nat, srtp: SrtpOverrides)
    ensures
      var (s1, used1) := CreateSipSession(active, used, vod1, Some(ip), Some(v1), Some(a1), Some(t1), srtp);
      var (s2, _) := CreateSipSession(active, used1, vod2, Some(ip), Some(v2), Some(a2), Some(t2), srtp);
      s1.Created? && s2.Created? && GetSipOptions(active, used1, vod2).0.fromActive ==>
        s1.params.sip.dingId != s2.params.sip.dingId
  {
  }

  /**
   * Two overlapping `getSipOptions` calls that both find no unused active
   * ding both wait on the same new-ding stream, so both are answered with the
   * same on-demand ding, and its id is recorded twice. Only the active-set
   * path is free of this, because it reserves the ding before suspending.
   */
  lemma OverlappingOnDemandShareDing(active: seq<Ding>, used: seq<string>, later: seq<Ding>)
    requires NewestUnused(active, used).None?
    requires FirstOnDemand(later).Some?
    ensures
      var (a1, _) := GetSipOptions(active, used, VodStarted(later));
      var (a2, _) := GetSipOptions(active, used, VodStarted(later));
      a1.Answered? && a2.Answered? && !a1.fromActive && a1.options.dingId == a2.options.dingId
  {
  }
}

=== FILE: snapshot.dfy ===
/**
 * The snapshot cache of `RingCamera`: the freshness test, one timestamp poll
 * (`getSnapshotTimestamp`), the bounded poll loop (`refreshSnapshot`) and the
 * single-flight `getSnapshot`.
 *
 * Time is a natural-number millisecond clock passed in as `now`; each
 * timestamp request is answered by an oracle entry that also carries the
 * local clock reading when the answer arrived and the camera record current
 * at that moment, whose connection alert says whether the device is offline.
 */
module Snapshot {
  import opened Wrappers
  import Device

  const SnapshotRefreshDelay: nat := 500
  const MaxSnapshotRefreshSeconds: nat := 30
  /** 30 s of polling at one request per 500 ms: 60 attempts. */
  const MaxSnapshotRefreshAttempts: nat := MaxSnapshotRefreshSeconds * 1000 / SnapshotRefreshDelay

  datatype SnapshotError =
    | DeviceOffline          // no snapshot was ever taken and the device is offline
    | RefreshTimedOut        // every one of the 60 polls answered with a stale timestamp
    | TimestampRequestFailed // the timestamp REST request itself failed
    | ImageFetchFailed       // the image REST request failed

  /** Freshness is strict: an age equal to the lifetime is already stale. */
  predicate IsTimestampInLifeTime(age: int, lifeTime: nat) {
    age < lifeTime
  }

  function Abs(x: int): nat {
    if x < 0 then -x else x
  }

  /**
   * The answer to one timestamp request: the server's response time, this
   * device's snapshot timestamp if the list held an entry for it, the local
   * clock when the answer arrived, and the camera record current then.
   */
  datatype TimestampReply = TimestampReply(
    responseTimestamp: int,
    deviceTimestamp: Option<int>,
    receivedAt: int,
    device: Device.CameraData
  )

  datatype TimestampAnswer = Replied(reply: TimestampReply) | RequestFailed

  /** What one poll yields: the remote timestamp (0 when none), its freshness, and the new local timestamp. */
  datatype Poll = Poll(timestamp: int, inLifeTime: bool, localTimestamp: int)

  /**
   * `getSnapshotTimestamp`: the remote age is the distance between the
   * response time and the snapshot timestamp; the local timestamp is the
   * arrival time moved back by that age, or 0 when the timestamp is 0.
   */
  function GetSnapshotTimestamp(r: TimestampReply, lifeTime: nat): (p: Poll)
    ensures r.deviceTimestamp.None? ==> p.timestamp == 0
    ensures r.deviceTimestamp.Some? ==> p.timestamp == r.deviceTimestamp.value
    ensures p.timestamp == 0 ==> p.localTimestamp == 0
    ensures p.timestamp != 0 ==> p.localTimestamp == r.receivedAt - Abs(r.responseTimestamp - p.timestamp)
    ensures p.timestamp != 0 ==> p.localTimestamp <= r.receivedAt
    ensures p.timestamp != 0 ==> (p.inLifeTime <==> IsTimestampInLifeTime(r.receivedAt - p.localTimestamp, lifeTime))
    ensures p.inLifeTime <==> Abs(r.responseTimestamp - p.timestamp) < lifeTime
  {
    var timestamp := r.deviceTimestamp.GetOr(0);
    var timestampAge := Abs(r.responseTimestamp - timestamp);
    Poll(timestamp, IsTimestampInLifeTime(timestampAge, lifeTime), if timestamp != 0 then r.receivedAt - timestampAge else 0)
  }

  /** The answer at position `i` of the oracle; a request beyond the oracle fails. */
  function AnswerAt(answers: seq<TimestampAnswer>, i: nat): TimestampAnswer {
    if i < |answers| then answers[i] else RequestFailed
  }

  /**
   * What one loop iteration decides: `None` when it goes on polling, else the
   * outcome the loop settles with (an error, or `false` meaning "fetch a new image").
   */
  function Verdict(a: TimestampAnswer, lifeTime: nat): (v: Option<Result<bool, SnapshotError>>)
    ensures v == Some(Err(TimestampRequestFailed)) <==> a.RequestFailed?
    ensures v == Some(Err(DeviceOffline)) <==>
      a.Replied? && a.reply.deviceTimestamp.GetOr(0) == 0 && Device.IsOffline(a.reply.device)
    ensures v == Some(Ok(false)) <==>
      && a.Replied?
      && !(a.reply.deviceTimestamp.GetOr(0) == 0 && Device.IsOffline(a.reply.device))
      && IsTimestampInLifeTime(Abs(a.reply.responseTimestamp - a.reply.deviceTimestamp.GetOr(0)), lifeTime)
    ensures v.Some? ==> v.value != Ok(true) && v.value != Err(RefreshTimedOut) && v.value != Err(ImageFetchFailed)
  {
    match a
    case RequestFailed => Some(Err(TimestampRequestFailed))
    case Replied(r) =>
      var p := GetSnapshotTimestamp(r, lifeTime);
      if p.timestamp == 0 && Device.IsOffline(r.device) then Some(Err(DeviceOffline))
      else if p.inLifeTime then Some(Ok(false))
      else None
  }

  /** A run of `refreshSnapshot`: how it settled, the local timestamp after it, and how many timestamp requests it made. */
  datatype RefreshRun = RefreshRun(outcome: Result<bool, SnapshotError>, lastLocal: int, requests: nat)

  /**
   * The poll loop from iteration `i` on. It settles at the first answer with a
   * verdict, or times out once all 60 attempts answered stale.
   */
  function PollLoop(answers: seq<TimestampAnswer>, lifeTime: nat, i: nat, lastLocal: int): (run: RefreshRun)
    requires i <= MaxSnapshotRefreshAttempts
    ensures i <= run.requests <= MaxSnapshotRefreshAttempts
    ensures forall j :: i <= j < run.requests - 1 ==> Verdict(AnswerAt(answers, j), lifeTime).None?
    ensures run.outcome == Err(RefreshTimedOut) <==>
      run.requests == MaxSnapshotRefreshAttempts && forall j :: i <= j < MaxSnapshotRefreshAttempts ==> Verdict(AnswerAt(answers, j), lifeTime).None?
    ensures run.outcome != Err(RefreshTimedOut) ==>
      i < run.requests && Verdict(AnswerAt(answers, run.requests - 1), lifeTime) == Some(run.outcome)
    ensures run.outcome == Ok(false) ==>
      AnswerAt(answers, run.requests - 1).Replied? &&
      run.lastLocal == GetSnapshotTimestamp(AnswerAt(answers, run.requests - 1).reply, lifeTime).localTimestamp
    ensures run.outcome == Err(DeviceOffline) ==> run.lastLocal == 0
    ensures run.outcome == Err(RefreshTimedOut) && i == MaxSnapshotRefreshAttempts ==> run.lastLocal == lastLocal
    ensures run.outcome == Err(RefreshTimedOut) && i < MaxSnapshotRefreshAttempts ==>
      AnswerAt(answers, MaxSnapshotRefreshAttempts - 1).Replied? &&
      run.lastLocal == GetSnapshotTimestamp(AnswerAt(answers, MaxSnapshotRefreshAttempts - 1).reply, lifeTime).localTimestamp
    ensures run.outcome == Err(TimestampRequestFailed) && run.requests == i + 1 ==> run.lastLocal == lastLocal
    ensures run.outcome == Err(TimestampRequestFailed) && run.requests > i + 1 ==>
      AnswerAt(answers, run.requests - 2).Replied? &&
      run.lastLocal == GetSnapshotTimestamp(AnswerAt(answers, run.requests - 2).reply, lifeTime).localTimestamp
    ensures run.outcome != Ok(true)
    decreases MaxSnapshotRefreshAttempts - i
  {
    if i == MaxSnapshotRefreshAttempts then RefreshRun(Err(RefreshTimedOut), lastLocal, i)
    else
      var a := AnswerAt(answers, i);
      var local := if a.Replied? then GetSnapshotTimestamp(a.reply, lifeTime).localTimestamp else lastLocal;
      match Verdict(a, lifeTime)
      case Some(v) => RefreshRun(v, local, i + 1)
      case None => PollLoop(answers, lifeTime, i + 1, local)
  }

  /**
   * `refreshSnapshot` started at `now`: `true` (reuse the cached image) when
   * the local timestamp is still within its lifetime, otherwise the poll loop.
   */
  function Refresh(lastLocal: int, now: int, lifeTime: nat, answers: seq<TimestampAnswer>): (run: RefreshRun)
    ensures run.requests <= MaxSnapshotRefreshAttempts
    ensures run.outcome == Ok(true) <==> IsTimestampInLifeTime(now - lastLocal, lifeTime)
    ensures run.outcome == Ok(true) <==> run.requests == 0
    ensures run.outcome == Ok(true) ==> run.lastLocal == lastLocal
    ensures run.outcome == Err(RefreshTimedOut) <==>
      !IsTimestampInLifeTime(now - lastLocal, lifeTime) &&
      forall j :: 0 <= j < MaxSnapshotRefreshAttempts ==> Verdict(AnswerAt(answers, j), lifeTime).None?
    ensures run.outcome == Err(RefreshTimedOut) ==> run.requests == MaxSnapshotRefreshAttempts
    ensures run.outcome != Ok(true) && run.outcome != Err(RefreshTimedOut) ==>
      && (forall j :: 0 <= j < run.requests - 1 ==> Verdict(AnswerAt(answers, j), lifeTime).None?)
      && Verdict(AnswerAt(answers, run.requests - 1), lifeTime) == Some(run.outcome)
    ensures run.outcome == Ok(false) ==>
      AnswerAt(answers, run.requests - 1).Replied? &&
      run.lastLocal == GetSnapshotTimestamp(AnswerAt(answers, run.requests - 1).reply, lifeTime).localTimestamp
    ensures run.outcome == Err(DeviceOffline) ==> run.lastLocal == 0
    ensures run.outcome == Err(RefreshTimedOut) ==>
      AnswerAt(answers, MaxSnapshotRefreshAttempts - 1).Replied? &&
      run.lastLocal == GetSnapshotTimestamp(AnswerAt(answers, MaxSnapshotRefreshAttempts - 1).reply, lifeTime).localTimestamp
    ensures run.outcome == Err(TimestampRequestFailed) && run.requests == 1 ==> run.lastLocal == lastLocal
    ensures run.outcome == Err(TimestampRequestFailed) && run.requests > 1 ==>
      AnswerAt(answers, run.requests - 2).Replied? &&
      run.lastLocal == GetSnapshotTimestamp(AnswerAt(answers, run.requests - 2).reply, lifeTime).localTimestamp
  {
    var currentTimestampAge := now - lastLocal;
    if IsTimestampInLifeTime(currentTimestampAge, lifeTime) then RefreshRun(Ok(true), lastLocal, 0)
    else PollLoop(answers, lifeTime, 0, lastLocal)
  }

  /** An offline device that never took a snapshot fails on the first request, without further polling. */
  lemma OfflineFailsImmediately(lastLocal: int, now: int, lifeTime: nat, answers: seq<TimestampAnswer>, r: TimestampReply)
    requires !IsTimestampInLifeTime(now - lastLocal, lifeTime)
    requires |answers| > 0 && answers[0] == Replied(r)
    requires r.deviceTimestamp.None? && Device.IsOffline(r.device)
    ensures Refresh(lastLocal, now, lifeTime, answers) == RefreshRun(Err(DeviceOffline), 0, 1)
  {
  }

  /**
   * An in-lifetime poll makes the cache fresh: a refresh started when that
   * answer arrives reuses the image without any request.
   */
  lemma FreshAfterInLifeTimePoll(r: TimestampReply, lifeTime: nat, answers: seq<TimestampAnswer>)
    requires GetSnapshotTimestamp(r, lifeTime).inLifeTime
    requires r.deviceTimestamp.Some? && r.deviceTimestamp.value != 0
    ensures Refresh(GetSnapshotTimestamp(r, lifeTime).localTimestamp, r.receivedAt, lifeTime, answers) ==
      RefreshRun(Ok(true), GetSnapshotTimestamp(r, lifeTime).localTimestamp, 0)
  {
  }

  // ---- getSnapshot ----

  /** The settled value of the image request promise kept in `lastSnapshotPromise`. */
  datatype FetchResult = Image(bytes: seq<bv8>) | FetchFailed

  /** What the caller of `getSnapshot` receives once the returned promise settles. */
  function Delivered(f: FetchResult): (r: Result<seq<bv8>, SnapshotError>)
    ensures r.Ok? <==> f.Image?
  {
    match f
    case Image(b) => Ok(b)
    case FetchFailed => Err(ImageFetchFailed)
  }

  /**
   * The snapshot state of one camera: the memoised outcome of the refresh in
   * progress (`refreshSnapshotInProgress`), the local timestamp, and the
   * cached image request (`lastSnapshotPromise`).
   */
  datatype SnapshotState = SnapshotState(
    inProgress: Option<Result<bool, SnapshotError>>,
    lastLocal: int,
    cache: Option<FetchResult>
  )

  /** A camera's snapshot state at construction: nothing in progress, no timestamp, no image. */
  function InitialState(): SnapshotState {
    SnapshotState(None, 0, None)
  }

  /** A caller after its first step: the state, the refresh outcome it awaits, and the timestamp requests it caused. */
  datatype Joined = Joined(state: SnapshotState, outcome: Result<bool, SnapshotError>, requests: nat)

  /**
   * First step of `getSnapshot`, up to its first suspension: attach to the
   * refresh in progress, or start one. A refresh this caller starts is applied
   * as one step here, local timestamp included; refreshes that overlap each
   * other are not modelled.
   */
  function Join(st: SnapshotState, now: int, lifeTime: nat, answers: seq<TimestampAnswer>): (j: Joined)
    ensures j.state.inProgress == Some(j.outcome)
    ensures j.state.cache == st.cache
    ensures st.inProgress.Some? ==> j.state == st && j.outcome == st.inProgress.value && j.requests == 0
    ensures st.inProgress.None? ==>
      var run := Refresh(st.lastLocal, now, lifeTime, answers);
      j.outcome == run.outcome && j.requests == run.requests && j.state.lastLocal == run.lastLocal
  {
    match st.inProgress
    case Some(o) => Joined(st, o, 0)
    case None =>
      var run := Refresh(st.lastLocal, now, lifeTime, answers);
      Joined(st.(inProgress := Some(run.outcome), lastLocal := run.lastLocal), run.outcome, run.requests)
  }

  /** A caller after it resumed: the state, what it returns, and how many image requests it issued. */
  datatype Resumed = Resumed(state: SnapshotState, reply: Result<seq<bv8>, SnapshotError>, fetches: nat)

  /**
   * Second step of `getSnapshot`, after the refresh settled with `outcome`.
   * As written: a refresh error with `allowStale` falls through to a new image
   * request instead of serving the cache, and a refresh error without
   * `allowStale` is raised while the rejected refresh stays memoised.
   */
  function Resume(st: SnapshotState, outcome: Result<bool, SnapshotError>, allowStale: bool, fetch: FetchResult): (r: Resumed)
    ensures r.fetches <= 1
    ensures r.fetches == 0 <==> (outcome == Ok(true) && st.cache.Some?) || (outcome.Err? && !allowStale)
    ensures outcome == Ok(true) && st.cache.Some? ==>
      r.reply == Delivered(st.cache.value) && r.state == st.(inProgress := None)
    ensures outcome.Err? && !allowStale ==> r.reply == Err(outcome.error) && r.state == st
    ensures r.fetches == 1 ==>
      r.reply == Delivered(fetch) && r.state == st.(inProgress := None, cache := Some(fetch))
  {
    if outcome == Ok(true) && st.cache.Some? then
      Resumed(st.(inProgress := None), Delivered(st.cache.value), 0)
    else if outcome.Err? && !allowStale then
      Resumed(st, Err(outcome.error), 0)
    else
      Resumed(st.(inProgress := None, cache := Some(fetch)), Delivered(fetch), 1)
  }

  /** The image request settles: a failed request is dropped from the cache. */
  function Settle(st: SnapshotState, fetch: FetchResult): (st': SnapshotState)
    ensures st'.inProgress == st.inProgress && st'.lastLocal == st.lastLocal
    ensures fetch.FetchFailed? ==> st'.cache.None?
    ensures fetch.Image? ==> st'.cache == st.cache
  {
    if fetch.FetchFailed? then st.(cache := None) else st
  }

  /** One uninterrupted `getSnapshot` call: its refresh outcome, result, and the requests it made. */
  datatype Call = Call(
    state: SnapshotState,
    outcome: Result<bool, SnapshotError>,
    reply: Result<seq<bv8>, SnapshotError>,
    requests: nat,
    fetches: nat
  )

  /** `getSnapshot(allowStale)` run by one caller with no other caller interleaved. */
  function GetSnapshot(st: SnapshotState, allowStale: bool, now: int, lifeTime: nat,
                       answers: seq<TimestampAnswer>, fetch: FetchResult): (c: Call)
    ensures st.inProgress.Some? ==> c.requests == 0 && c.outcome == st.inProgress.value
    ensures st.inProgress.None? ==>
      c.outcome == Refresh(st.lastLocal, now, lifeTime, answers).outcome &&
      c.requests == Refresh(st.lastLocal, now, lifeTime, answers).requests
    ensures c.requests <= MaxSnapshotRefreshAttempts
    ensures c.fetches <= 1
    ensures c.fetches == 0 && c.outcome.Ok? ==> c.outcome.value && st.cache.Some? && c.reply == Delivered(st.cache.value)
    ensures c.fetches == 0 <==> (c.outcome == Ok(true) && st.cache.Some?) || (c.outcome.Err? && !allowStale)
    ensures c.fetches == 1 ==>
      && c.reply == Delivered(fetch)
      && c.state.cache == (if fetch.Image? then Some(fetch) else None)
      && c.state.inProgress.None?
    ensures c.outcome.Err? && !allowStale ==> c.reply == Err(c.outcome.error) && c.state.inProgress == Some(c.outcome)
    ensures c.fetches == 0 ==> c.state.cache == st.cache
    ensures c.fetches == 0 && c.outcome.Ok? ==> c.state.inProgress.None?
    ensures st.inProgress.Some? ==> c.state.lastLocal == st.lastLocal
    ensures st.inProgress.None? ==> c.state.lastLocal == Refresh(st.lastLocal, now, lifeTime, answers).lastLocal
    ensures st.inProgress.None? && c.outcome == Ok(false) ==>
      c.requests > 0 && AnswerAt(answers, c.requests - 1).Replied? &&
      c.state.lastLocal == GetSnapshotTimestamp(AnswerAt(answers, c.requests - 1).reply, lifeTime).localTimestamp
  {
    var j := Join(st, now, lifeTime, answers);
    var r := Resume(j.state, j.outcome, allowStale, fetch);
    var st' := if r.fetches == 1 then Settle(r.state, fetch) else r.state;
    Call(st', j.outcome, r.reply, j.requests, r.fetches)
  }

  /**
   * The snapshot lifetime a camera is built with decides reuse: a battery
   * camera reuses a snapshot whose local timestamp is less than ten minutes
   * old, any other camera one less than thirty seconds old.
   */
  lemma LifeTimeByPowerSource(initial: Device.CameraData, batteryKinds: seq<string>, lastLocal: int, now: int,
                              answers: seq<TimestampAnswer>)
    ensures var run := Refresh(lastLocal, now, Device.NewCamera(initial, batteryKinds).snapshotLifeTime, answers);
      run.outcome == Ok(true) <==> now - lastLocal < (if initial.kind in batteryKinds then 600000 else 30000)
  {
  }

  /**
   * The first `getSnapshot` on a new camera polls the device: with a clock
   * past ten minutes, the initial local timestamp 0 is stale for either lifetime.
   */
  lemma FirstSnapshotPolls(initial: Device.CameraData, batteryKinds: seq<string>, allowStale: bool, now: int,
                           answers: seq<TimestampAnswer>, fetch: FetchResult)
    requires now >= Device.BatterySnapshotLifeTime
    ensures var c := GetSnapshot(InitialState(), allowStale, now, Device.NewCamera(initial, batteryKinds).snapshotLifeTime, answers, fetch);
      c.requests >= 1 && c.outcome != Ok(true)
  {
  }

  /** Within the lifetime, a cached image is served again with no request of any kind. */
  lemma FreshCacheServedWithoutRequests(st: SnapshotState, allowStale: bool, now: int, lifeTime: nat,
                                        answers: seq<TimestampAnswer>, fetch: FetchResult, bytes: seq<bv8>)
    requires st.inProgress.None? && st.cache == Some(Image(bytes))
    requires IsTimestampInLifeTime(now - st.lastLocal, lifeTime)
    ensures var c := GetSnapshot(st, allowStale, now, lifeTime, answers, fetch);
      c.reply == Ok(bytes) && c.requests == 0 && c.fetches == 0 && c.state == st
  {
  }

  /**
   * As written, stale-tolerant mode does not serve the cached image when the
   * refresh fails: it requests a new image, and a failed request also loses
   * the good image that was cached.
   */
  lemma StaleModeRequestsNewImage(st: SnapshotState, now: int, lifeTime: nat,
                                  answers: seq<TimestampAnswer>, bytes: seq<bv8>)
    requires st.inProgress.None? && st.cache == Some(Image(bytes))
    requires !IsTimestampInLifeTime(now - st.lastLocal, lifeTime)
    requires forall j :: 0 <= j < MaxSnapshotRefreshAttempts ==> Verdict(AnswerAt(answers, j), lifeTime).None?
    ensures var c := GetSnapshot(st, true, now, lifeTime, answers, FetchFailed);
      c.outcome == Err(RefreshTimedOut) && c.fetches == 1 && c.reply == Err(ImageFetchFailed) && c.state.cache.None?
  {
  }

  /**
   * As written, a refresh error raised without `allowStale` stays memoised:
   * the next such call, at any time and whatever the device would answer,
   * raises the same error without a single request.
   */
  lemma FailedRefreshStaysMemoised(st: SnapshotState, now: int, lifeTime: nat, answers: seq<TimestampAnswer>,
                                   fetch: FetchResult, later: seq<(int, seq<TimestampAnswer>, FetchResult)>)
    requires GetSnapshot(st, false, now, lifeTime, answers, fetch).outcome.Err?
    ensures var c := GetSnapshot(st, false, now, lifeTime, answers, fetch);
      var cs := Repeat(c.state, lifeTime, later);
      forall k :: 0 <= k < |cs| ==> cs[k].reply == Err(c.outcome.error) && cs[k].requests == 0 && cs[k].fetches == 0
  {
    var c := GetSnapshot(st, false, now, lifeTime, answers, fetch);
    MemoisedErrorRepeats(c.state, c.outcome.error, lifeTime, later);
  }

  lemma {:induction false} MemoisedErrorRepeats(st: SnapshotState, e: SnapshotError, lifeTime: nat,
                                                later: seq<(int, seq<TimestampAnswer>, FetchResult)>)
    requires st.inProgress == Some(Err(e))
    ensures var cs := Repeat(st, lifeTime, later);
      forall k :: 0 <= k < |cs| ==> cs[k].reply == Err(e) && cs[k].requests == 0 && cs[k].fetches == 0 && cs[k].state == st
    decreases |later|
  {
    if later != [] {
      var c1 := GetSnapshot(st, false, later[0].0, lifeTime, later[0].1, later[0].2);
      assert c1.state == st;
      MemoisedErrorRepeats(st, e, lifeTime, later[1..]);
      var cs := Repeat(st, lifeTime, later);
      assert cs == [c1] + Repeat(st, lifeTime, later[1..]);
      forall k | 0 < k < |cs|
        ensures cs[k].reply == Err(e) && cs[k].requests == 0 && cs[k].fetches == 0 && cs[k].state == st
      {
        assert cs[k] == Repeat(st, lifeTime, later[1..])[k - 1];
      }
    }
  }

  /** A run of uninterrupted calls without `allowStale`, each at its own time and with its own answers. */
  function Repeat(st: SnapshotState, lifeTime: nat, calls: seq<(int, seq<TimestampAnswer>, FetchResult)>): (cs: seq<Call>)
    ensures |cs| == |calls|
    decreases |calls|
  {
    if calls == [] then []
    else
      var c := GetSnapshot(st, false, calls[0].0, lifeTime, calls[0].1, calls[0].2);
      [c] + Repeat(c.state, lifeTime, calls[1..])
  }

  /**
   * Two callers overlap: both join before either resumes. Only one refresh
   * runs and both see its outcome. When it says the cached timestamp is fresh
   * and no image is cached, the second caller is served the first caller's
   * image request; when it says a new image is needed, each caller issues
   * its own image request.
   */
  lemma ConcurrentCallers(st: SnapshotState, now: int, lifeTime: nat, answers: seq<TimestampAnswer>,
                          answers2: seq<TimestampAnswer>, stale1: bool, stale2: bool, fetch1: FetchResult, fetch2: FetchResult)
    requires st.inProgress.None? && st.cache.None?
    ensures
      var j1 := Join(st, now, lifeTime, answers);
      var j2 := Join(j1.state, now, lifeTime, answers2);
      var r1 := Resume(j2.state, j1.outcome, stale1, fetch1);
      var r2 := Resume(r1.state, j2.outcome, stale2, fetch2);
      && j2.requests == 0 && j2.outcome == j1.outcome
      && (j1.outcome == Ok(true) ==> r1.fetches + r2.fetches == 1 && r2.reply == r1.reply)
      && (j1.outcome == Ok(false) ==> r1.fetches + r2.fetches == 2)
  {
  }
}

=== FILE: wrappers.dfy ===
/** The `Option` and `Result` datatypes shared by every module of the camera model. */
module Wrappers {

  /** An optional value; stands for a JavaScript `undefined`-able field. */
  datatype Option<+T> = None | Some(value: T) {

    /** Returns the value, or `default` when there is none. */
    function GetOr(default: T): T {
      match this
      case Some(v) => v
      case None => default
    }
  }

  /** The settled value of a promise: resolved with a value, or rejected with an error. */
  datatype Result<+T, +E> = Ok(value: T) | Err(error: E)
}
